=== FILE: README.md ===
# Timelapse scheduler — a Dafny model

`timelapse.py` drives a camera that takes a fixed number of frames per day,
spread evenly over the daylight between sunrise and sunset, for a fixed
number of days. Everything it knows lives in three JSON documents:
- `settings.json`: frames per second of the final video, its length, and
  the number of days;
- `state.json`: the total number of frames, the run-wide frame count, the
  day count, the daily quota and the next wake-up instant;
- `daily_progress.json`: the cadence between frames and today's frame count.

Its `main` loop re-reads these documents on every pass. A pass either goes
back to sleep because it woke early, or captures a frame. After a capture
it sleeps one cadence, sleeps until tomorrow's sunrise, or deletes its
state and stops when the last day's quota is met.

The model is functional. One pass of the loop is
`Scheduler.Tick(disk, oracle)`:
- `disk` holds each document or its absence;
- `oracle` holds the instants the pass reads: the clock, today's sunrise
  and sunset, and tomorrow's sunrise.

The result is a `Step`. Either the loop goes round again with the records
held in memory, or the process ends. Both carry the ordered effects of the
pass: writes and removals of documents, `Capture(index)`, `SleepFor(seconds)`,
`Stop`, and `Fail(fault)` for the exceptions that end the process.
`Store.Persist` replays the effects on the disk. That is how the crash and
restart properties are stated, because a restart resumes from the disk
alone. `Scheduler.Start` is the start of the process before the loop.
`Trace.Run` chains passes of the loop, each on the disk the previous one
left. `Trace.Lifetime` is one process: its start, then its loop.

The model follows the code as written:
- **Capture index.** The counters are incremented before the capture, so
  the file index is the count after the increment and the first file is
  `frame1`.
- **Oversleep.** A due pass after today's sunset runs `sleep_until_sunrise`,
  which closes the log file, and there is no `continue`. The pass goes on,
  and its next log message goes to the closed file, which ends the process:
  - at the run's first capture, right after the cadence is re-paced and
    before any capture;
  - otherwise, right after the next frame is taken.
  Nothing is saved after the recovery's save. The disk therefore keeps the
  count from before that frame, tomorrow's sunrise, and no daily progress.
- **Restarts.** A start of the process loads verbosely. When it finds no
  daily progress, it writes a new one, and then its log message reads a
  key the run state lacks, which ends the process. Only the start after
  that gets into the loop. After an overslept pass, that loop takes the
  same frame again and writes over its image file. The frames the
  overslept pass's day had already taken stay in the run-wide count while
  the new day starts again from zero, and no day was counted. So a run that
  goes on to the end takes more frames than its total: the run-wide count
  can pass `total_frames`.
- **Daily count.** With a whole quota, the daily count on disk stays below
  the quota: the capture that meets it ends the day or the run, and the
  daily progress is deleted.
- **Passes before sunrise.** A due pass between midnight and sunrise comes
  before today's sunset, so it is not an oversleep: it captures in the
  dark. If it ends the day, tomorrow's sunrise is more than a day away, and
  the `.seconds` sleep lands a day early, on today's sunrise.
- **`timedelta.seconds`.** It is the difference reduced modulo 86400
  (`Records.DeltaSeconds`), also for the daylight that paces a new day.
- **Last capture.** On the last day's final capture nothing is saved: both
  documents are removed and the loop ends.
- **Python errors** become `Fail` effects:
  - a missing settings document (exit status 1);
  - a division by zero days or by a zero quota;
  - a negative sleep;
  - a log message written to the closed log file;
  - the verbose load's missing key.

## Model

| member | source | states |
|---|---|---|
| Records.DeltaSeconds | timelapse.py:140 | `timedelta.seconds` of an instant difference: lies in [0, 86400), differs from the difference by whole days, and equals it when it is already within a day |
| Startup.FirstRunState | timelapse.py:83-88 | the first run's state: total = fps × length, quota × days = total, counters zero, wake-up instant 0 |
| Startup.NewDay | timelapse.py:106-110 | a new day's progress: count zero, and cadence × quota = today's daylight (sunset − sunrise modulo a day) |
| Store.Apply | timelapse.py:126-132 | `save_states` leaves on disk exactly the three records it writes, whatever was there; a capture, a sleep, a failure or the end of the process changes no document |
| Store.PersistSaveRemoveSleep | timelapse.py:144-147 | `sleep_until_sunrise`'s save, then `os.remove` of the daily progress, then anything that touches no document leave the saved settings and run state and no daily progress |
| Startup.Load | timelapse.py:48-113 | loading fails exactly when settings are missing, or a new run has zero days, or a new day must be paced on a zero quota, which fails after a new run state is written. It takes documents on disk as they are and initialises the missing ones. It captures nothing and leaves on disk exactly the records it returns |
| Startup.LoadIdempotent | timelapse.py:155-161 | a second load from what a load left on disk returns the same records and writes nothing, whatever the clock then says |
| Quota.WholeQuotaIff | timelapse.py:87 | the real quotient `total / days` is whole exactly when `days` divides `total` |
| Quota.FirstRunQuotaWhole | timelapse.py:83-87 | a new run's daily quota is whole exactly when the days divide fps × length |
| Scheduler.SleepUntilSunrise | timelapse.py:135-147 | tomorrow's sunrise becomes the wake-up instant and all else stays the same; then save all, delete the daily progress, and sleep less than a day, landing on that sunrise whenever it is less than a day away |
| Scheduler.RunStartAdjust | timelapse.py:167-170 | the cadence is replaced exactly at the run's first capture, paced on the daylight left until sunset; a zero quota there is the only failure; otherwise the progress is unchanged |
| Scheduler.AfterCapture | timelapse.py:179-197 | quota met on the last day: the run state is deleted, then the daily progress, then stop, saving nothing. Quota met on another day: the day is counted and the scheduler sleeps until tomorrow's sunrise. Quota unmet: the next wake is now + cadence, all is saved, then the scheduler sleeps the cadence, and a negative cadence fails the sleep |
| Scheduler.Captured | timelapse.py:173-175 | the frame captured first is the incremented run-wide count. Both counters move by one, total and quota are kept, and a continuing pass saves its next wake-up instant and sleeps. Within the day the sleep lands on that instant; at the day's end it lands on tomorrow's sunrise only when that sunrise is less than a day away |
| Scheduler.CaptureFrame | timelapse.py:167-175 | before sunset: a zero quota at the run's first capture ends the pass before any capture; otherwise exactly the next frame is captured; the cadence changes only at the run's first capture |
| Scheduler.OversleptTail | timelapse.py:167-176 | what an overslept pass does once `sleep_until_sunrise` has returned: past the run's first capture it takes the next frame and fails on the closed log at the next message; at the run's first capture it takes nothing and fails on a zero quota, or else on the closed log. There is exactly one failure, the last effect, and every effect before it is a capture |
| Scheduler.Overslept | timelapse.py:165-176 | an overslept pass always ends the process: after the recovery's save, removal and sleep it takes the next frame, except at the run's first capture, and then fails on the closed log (or on a zero quota first); nothing after the save touches the disk |
| Scheduler.Due | timelapse.py:164-197 | a due pass captures exactly the next frame, except at the run's first capture when the quota is zero or the pass came after sunset; after sunset it ends the process; a continuing pass ends with a save and a sleep. That sleep lands on the saved wake-up instant within the day, and at the day's end only when tomorrow's sunrise is less than a day away |
| Scheduler.Wake | timelapse.py:164-200 | a pass before the wake-up instant sleeps exactly the positive time left and changes nothing; any other pass is due |
| Scheduler.Start | timelapse.py:150-158 | a start captures nothing. A failed load ends it with exactly the load's effects. It goes on exactly when loading succeeds and a daily progress was on disk, and then hands the loop the records on disk. When no daily progress was on disk, it writes one and then ends on the missing key |
| Properties.EarlyWake | timelapse.py:199-200 | an early wake captures nothing, changes no record, leaves the disk as it is, and sleeps exactly the positive time left |
| Properties.DueWakeCapturesNextFrame | timelapse.py:164-176 | a due wake before sunset captures one frame numbered with the incremented count, except that a zero quota at the run's first capture fails first; after sunset it ends the process, having taken that frame unless it is the run's first; a continuing wake moves both counters by one |
| Properties.RunStartAdjustsCadence | timelapse.py:167-170 | the cadence becomes remaining daylight / quota at the run's first capture and is untouched otherwise |
| Properties.DueWakeDisk | timelapse.py:190-197 | a due wake that continues leaves on disk the settings and the run state it holds; the daily progress it holds stays, unless the day ended, in which case the progress is removed |
| Properties.CapturedQuotaNotMet | timelapse.py:190-197 | the capture that leaves the quota unmet has exactly the effects capture, save all, sleep the cadence; it never removes the run state or stops |
| Properties.QuotaNotMet | timelapse.py:190-197 | quota unmet before sunset: the day and the cadence are kept, the next wake is now + cadence, the disk holds exactly the records held, and the sleep is the cadence; a negative cadence fails |
| Properties.CapturedDayDone | timelapse.py:179-189 | the capture that meets a non-final quota has the effects capture, save, remove daily progress, then sleep `(sunrise − now) mod 86400` |
| Properties.DayDone | timelapse.py:179-189 | non-final quota met before sunset: the day is counted and tomorrow's sunrise saved; the disk keeps the run state and loses the daily progress; the sleep is `(sunrise − now) mod 86400` |
| Properties.CapturedRunDone | timelapse.py:179-187 | the last capture removes the run state, then the daily progress, then stops, saving nothing |
| Properties.RunDone | timelapse.py:179-187 | last quota met before sunset: the effects are exactly capture, remove state, remove daily progress, stop; only the settings remain on disk |
| Properties.OversleepFallsThrough | timelapse.py:165-176 | an overslept pass saves tomorrow's sunrise, deletes the daily progress and sleeps (`(sunrise − now) mod 86400`); then it takes the next frame and fails on the closed log, or at the run's first capture fails before any capture. The disk keeps the count from before the frame, tomorrow's sunrise and no daily progress |
| Properties.FractionalQuotaNeverEndsDay | timelapse.py:179-180 | with a fractional quota no pass counts a day, removes the run state or stops |
| Properties.DailyCountWithinQuota | timelapse.py:173-189 | with a whole quota, a wake that starts with today's count below the quota leaves on disk either a daily progress whose count is still below it or none: the capture that meets the quota ends the day or the run, and the daily progress is deleted at `timelapse.py:145` or `:185` |
| Properties.CapturedDailyWithinQuota | timelapse.py:173-197 | the same bound for a capture and what follows it, on any disk |
| Properties.LateStartShortensCadence | timelapse.py:167-170 | a run started during daylight paces its first day with a positive cadence shorter than the whole day's |
| Recovery.SettingsNeverChange | timelapse.py:126-128 | no pass of the loop (`Scheduler.Tick`) changes the settings document |
| Recovery.TickPersists | timelapse.py:160-161 | the disk after a pass equals the disk after waking on the loaded records as if they had been on disk |
| Recovery.TickSavesState | timelapse.py:190-193 | a continuing pass has the run state it holds on disk before it sleeps, with the settings unchanged and its daily progress or none |
| Recovery.LoadResumes | timelapse.py:76-103 | loading a disk with settings and a run state takes that run state, and the daily progress when present, otherwise a fresh one |
| Recovery.RestartResumes | timelapse.py:144-158 | a restart during the sleep of a continuing pass resumes with that pass's run state and daily progress. After a day's end, the first restart writes the new day's progress and ends on the missing key, and the next restart resumes with that run state and the new day. On a zero quota no restart gets past loading |
| Recovery.StartHandsOver | timelapse.py:155-161 | the loop's first load takes the records a start went on with again, writing nothing |
| Recovery.OversleepRetakesFrame | timelapse.py:144-176 | after an overslept pass took frame k+1, the first restart leaves the count k, tomorrow's sunrise and a new day's progress on disk and ends in the verbose load; the second goes on with that run state and the new day, writing nothing, and its first due pass before sunset takes frame k+1 again, writing over that image |
| Recovery.OversleptRestart | timelapse.py:144-158 | after an overslept pass that took frame k+1, the disk holds the run state with the count k and tomorrow's sunrise and no daily progress; the restart that follows writes the new day's progress and ends |
| Recovery.RestartRetakes | timelapse.py:150-176 | with all three documents on disk and the run past its first capture, a start goes on, writing nothing, and a due pass before sunset captures the frame one past the count on disk |
| Recovery.TickRetakes | timelapse.py:160-176 | a pass of the loop on all three documents, past the run's first capture, due and before sunset, captures the frame one past the saved count |
| Recovery.OversleepOvershootsTotal | timelapse.py:105-176 | after an overslept pass and the restart that follows, the run count and the day count on disk are unchanged while the new day's count is zero. So on a run whose counts were in step, a full quota for each day left brings the run count to the total plus the abandoned part-day's count: `current_frame <= total_frames` is not kept |
| Recovery.StartWithoutDaily | timelapse.py:105-115 | a start that finds settings and a run state with a non-zero quota but no daily progress ends, leaving the new day's progress on disk beside them |
| Recovery.StartOnDisk | timelapse.py:150-158 | a start on a disk holding all three documents goes on with them and writes nothing |
| Recovery.TickOnDisk | timelapse.py:160-161 | a pass of the loop on a disk holding all three documents is a wake on exactly those records |
| Recovery.RestartBeforeWake | timelapse.py:199-200 | a restart before the saved wake-up instant writes and captures nothing and sleeps until that instant |
| Recovery.WakeCapturesNext | timelapse.py:173-175 | a wake captures at most the frame one past the loaded count, and the count it holds afterwards has moved past what it captured |
| Recovery.TickCapturesNext | timelapse.py:160-176 | a pass of the loop (`Scheduler.Tick`) captures at most one frame, numbered one past the count on disk |
| Recovery.TickCountSaved | timelapse.py:173-193 | a continuing pass leaves on disk the count on disk plus the number of frames it captured |
| Trace.Run | timelapse.py:160-200 | the disk at the end of a sequence of passes of the loop is the starting disk with every effect replayed in order |
| Trace.RunCapturesConsecutive | timelapse.py:173-175 | across the passes of one loop, frames are numbered consecutively from one past the count on disk: none skipped, none repeated |
| Trace.Lifetime | timelapse.py:150-200 | the disk at the end of one process's lifetime (start, then loop) is the starting disk with every effect replayed in order |
| Trace.LifetimeCapturesConsecutive | timelapse.py:173-175 | within one lifetime, frames are numbered consecutively from one past the count on disk at the start |
| Trace.LifetimeNeverOverwrites | timelapse.py:34 | frame numbers strictly increase within one lifetime, so a process never writes the same image file twice |

## Left out

- Camera capture through picamera2 (`timelapse.py:31-34`) is a foreign hardware call. It is the `Capture(index)` effect, and a failed capture is not modelled.
- Sunrise and sunset from astral (`timelapse.py:118-123`) come from a foreign library. They are inputs: whole epoch seconds for today's sunrise and sunset and tomorrow's sunrise.
- The clock is an input. One `now` serves a whole pass, and time does not pass during a sleep; `SleepFor` only records the duration.
- JSON reading and writing, the log file, `LOG` and the strftime formatting are input and output. They are the presence or absence of a document and the write and remove effects. Of the log, only the two failures above are modelled. A malformed JSON document is not modelled.
- The log message at `timelapse.py:171` prints the quota, not the cadence. It touches the log alone and is not modelled.
- Timestamps and quotients are floats in the program. The model uses `int` for instants and exact `real` for the quota, the cadence and the wake-up instant, so float rounding is not modelled.
- What restarts the process after it ends is outside the program. A restart is modelled as a new `Scheduler.Start` on the disk the last lifetime left.
- Scheduler.Tick: its own contract only says how a pass is put together from loading and waking. What a pass promises is stated by `Recovery.TickCapturesNext`, `Recovery.SettingsNeverChange`, `Recovery.TickSavesState` and `Recovery.TickCountSaved`.

=== FILE: properties.dfy ===
/** Properties of one wake of the scheduler, stated on `Wake`, the body of
    the loop on the loaded records, and on the disk it leaves when the three
    documents were on disk: the quota and cadence rules, the end of a day and
    of the run, and the oversleep recovery. */
module Properties {
  import opened Records
  import opened Store
  import opened Startup
  import opened Scheduler
  import opened Quota

  /** The disk right after these records were loaded. */
  function OnDisk(settings: Settings, state: RunState, daily: DailyProgress): (r: Disk) {
    Disk(Some(settings), Some(state), Some(daily))
  }

  /** The capture of a due wake meets today's quota. */
  predicate MeetsQuota(state: RunState, daily: DailyProgress) {
    (daily.currentFrame + 1) as real == state.framesPerDay
  }

  /** The run's first capture with a zero quota, which divides by zero. */
  predicate ZeroQuotaStart(state: RunState) {
    FirstCapture(state) && state.framesPerDay == 0.0
  }

  /** A wake before the saved wake-up instant captures nothing, changes no
      record and leaves the disk as it is: it sleeps for exactly the time
      left, which is positive. */
  lemma EarlyWake(settings: Settings, state: RunState, daily: DailyProgress, o: Oracle)
    requires o.now as real < state.nextWakeup
    ensures var r := Wake(settings, state, daily, o);
            && r == Next(state, daily, [SleepFor(state.nextWakeup - o.now as real)])
            && state.nextWakeup - o.now as real > 0.0
            && Captures(r.effects) == []
            && Persist(OnDisk(settings, state, daily), r.effects) == OnDisk(settings, state, daily)
  {
    var r := Wake(settings, state, daily, o);
    assert !Touches(r.effects[0]) && !r.effects[0].Capture?;
  }

  /** A due wake before sunset captures exactly one frame, whose index is
      the incremented run-wide count, and moves both counters by exactly one;
      the exception is a zero quota at the run's first capture, which ends
      the process before the capture. A due wake after sunset ends the
      process: it takes the same frame, unless it is the run's first. */
  lemma DueWakeCapturesNextFrame(settings: Settings, state: RunState, daily: DailyProgress, o: Oracle)
    requires state.nextWakeup <= o.now as real
    ensures var r := Wake(settings, state, daily, o);
            && (!ZeroQuotaStart(state) && o.now < o.sunset ==> Captures(r.effects) == [state.currentFrame + 1])
            && (ZeroQuotaStart(state) ==>
                  r.Halt? && Captures(r.effects) == [] && r.effects[|r.effects| - 1] == Fail(ZeroDivision))
            && (o.now >= o.sunset ==>
                  && r.Halt?
                  && Captures(r.effects) == (if FirstCapture(state) then [] else [state.currentFrame + 1]))
            && (r.Next? ==>
                  && r.state.currentFrame == state.currentFrame + 1
                  && r.daily.currentFrame == daily.currentFrame + 1
                  && r.state.totalFrames == state.totalFrames
                  && r.state.framesPerDay == state.framesPerDay)
  {
    var r := Wake(settings, state, daily, o);
    if o.now < o.sunset && !ZeroQuotaStart(state) {
      assert r == Captured(settings, state, RunStartAdjust(state, daily, o).value, o);
    } else if o.now >= o.sunset {
      assert r == Overslept(settings, state, daily, o);
    }
  }

  /** The cadence is replaced only before the run's first capture, by the
      daylight that remains until sunset divided by the quota; at every
      other capture it stays as loaded. */
  lemma RunStartAdjustsCadence(settings: Settings, state: RunState, daily: DailyProgress, o: Oracle)
    requires state.nextWakeup <= o.now as real
    requires Wake(settings, state, daily, o).Next?
    ensures var r := Wake(settings, state, daily, o);
            && (FirstCapture(state) ==>
                  Paces(r.daily.sleepDuration, state.framesPerDay, DeltaSeconds(o.sunset - o.now)))
            && (!FirstCapture(state) ==> r.daily.sleepDuration == daily.sleepDuration)
  {
  }

  /** A due wake that goes round the loop saves the run state it holds and
      ends with a sleep as `SleepsOnSavedWake` describes: within the day it
      lands on the saved wake-up instant, and at the day's end it lands on
      the saved sunrise when that sunrise is less than a day away. The disk
      then holds the settings as they were, that run state, and the daily
      progress it holds unless the day is over. */
  lemma DueWakeDisk(settings: Settings, state: RunState, daily: DailyProgress, o: Oracle)
    requires state.nextWakeup <= o.now as real
    requires Wake(settings, state, daily, o).Next?
    ensures var r := Wake(settings, state, daily, o);
            var after := Persist(OnDisk(settings, state, daily), r.effects);
            && SleepsOnSavedWake(r, settings, o)
            && after.settings == Some(settings)
            && after.state == Some(r.state)
            && (r.effects[|r.effects| - 2] == SaveAll(settings, r.state, r.daily) ==> after.daily == Some(r.daily))
            && (r.effects[|r.effects| - 2] == RemoveDaily ==> after.daily == None)
  {
    var r := Wake(settings, state, daily, o);
    assert o.now < o.sunset && SleepsOnSavedWake(r, settings, o);
    SavedWakeDisk(OnDisk(settings, state, daily), r, settings, o);
  }

  /** The disk left by effects that end as `SleepsOnSavedWake` describes. */
  lemma SavedWakeDisk(disk: Disk, r: Step, settings: Settings, o: Oracle)
    requires SleepsOnSavedWake(r, settings, o)
    ensures var after := Persist(disk, r.effects);
            && after.settings == Some(settings)
            && after.state == Some(r.state)
            && (r.effects[|r.effects| - 2] == SaveAll(settings, r.state, r.daily) ==> after.daily == Some(r.daily))
            && (r.effects[|r.effects| - 2] == RemoveDaily ==> after.daily == None)
  {
    if r.effects[|r.effects| - 2] == SaveAll(settings, r.state, r.daily) {
      PersistSaveSleep(disk, r.effects);
    } else {
      PersistSaveRemoveSleep(disk, r.effects);
    }
  }

  /** The capture that leaves the quota unmet, given the cadence in force. */
  lemma CapturedQuotaNotMet(settings: Settings, state: RunState, daily: DailyProgress, o: Oracle)
    requires !MeetsQuota(state, daily)
    ensures var r := Captured(settings, state, daily, o);
            && (r.Next? <==> daily.sleepDuration >= 0.0)
            && |r.effects| >= 2
            && (r.Next? ==>
                  && r.state.currentDay == state.currentDay
                  && r.daily.sleepDuration == daily.sleepDuration
                  && r.state.nextWakeup == o.now as real + r.daily.sleepDuration
                  && r.effects == [Capture(state.currentFrame + 1), SaveAll(settings, r.state, r.daily),
                                   SleepFor(r.daily.sleepDuration)])
            && (r.Halt? ==> r.effects[|r.effects| - 1] == Fail(NegativeSleep))
            && RemoveState !in r.effects && Stop !in r.effects
  {
  }

  /** Quota not met: the day stays, the next wake is one cadence from now,
      all documents are saved with those records, and the wake sleeps for
      the cadence. A negative cadence instead ends the process, after the
      save, in the sleep call. (After sunset the wake ends the process
      instead: see `OversleepFallsThrough`.) */
  lemma QuotaNotMet(settings: Settings, state: RunState, daily: DailyProgress, o: Oracle)
    requires state.nextWakeup <= o.now as real && o.now < o.sunset
    requires !MeetsQuota(state, daily) && !ZeroQuotaStart(state)
    ensures var r := Wake(settings, state, daily, o);
            && (!FirstCapture(state) ==> (r.Next? <==> daily.sleepDuration >= 0.0))
            && (r.Next? ==>
                  && r.state.currentDay == state.currentDay
                  && (!FirstCapture(state) ==> r.daily.sleepDuration == daily.sleepDuration)
                  && r.state.nextWakeup == o.now as real + r.daily.sleepDuration
                  && r.effects[|r.effects| - 1] == SleepFor(r.daily.sleepDuration)
                  && Persist(OnDisk(settings, state, daily), r.effects)
                       == Disk(Some(settings), Some(r.state), Some(r.daily)))
            && (r.Halt? ==> r.effects[|r.effects| - 1] == Fail(NegativeSleep))
  {
    CapturedQuotaNotMet(settings, state, RunStartAdjust(state, daily, o).value, o);
    var r := Wake(settings, state, daily, o);
    if r.Next? {
      PersistSaveSleep(OnDisk(settings, state, daily), r.effects);
    }
  }

  /** The capture that meets the quota on a day that is not the last. */
  lemma CapturedDayDone(settings: Settings, state: RunState, daily: DailyProgress, o: Oracle)
    requires MeetsQuota(state, daily) && state.currentDay + 1 != settings.days
    ensures var r := Captured(settings, state, daily, o);
            && r.Next?
            && r.state.currentDay == state.currentDay + 1
            && r.state.nextWakeup == o.tomorrowSunrise as real
            && |r.effects| == 4
            && r.effects[1] == SaveAll(settings, r.state, r.daily)
            && r.effects[2] == RemoveDaily
            && r.effects[3] == SleepFor(DeltaSeconds(o.tomorrowSunrise - o.now) as real)
  {
  }

  /** Quota met on a day that is not the last: the day is counted, tomorrow's
      sunrise becomes the wake-up instant, the run state is saved and the
      daily progress deleted, and the sleep is shorter than a day. */
  lemma DayDone(settings: Settings, state: RunState, daily: DailyProgress, o: Oracle)
    requires state.nextWakeup <= o.now as real && o.now < o.sunset
    requires MeetsQuota(state, daily) && !ZeroQuotaStart(state)
    requires state.currentDay + 1 != settings.days
    ensures var r := Wake(settings, state, daily, o);
            && r.Next?
            && r.state.currentDay == state.currentDay + 1
            && r.state.nextWakeup == o.tomorrowSunrise as real
            && r.effects[|r.effects| - 1] == SleepFor(DeltaSeconds(o.tomorrowSunrise - o.now) as real)
            && Persist(OnDisk(settings, state, daily), r.effects) == Disk(Some(settings), Some(r.state), None)
  {
    CapturedDayDone(settings, state, RunStartAdjust(state, daily, o).value, o);
    var r := Wake(settings, state, daily, o);
    PersistSaveRemoveSleep(OnDisk(settings, state, daily), r.effects);
  }

  /** The capture that meets the quota on the last day. */
  lemma CapturedRunDone(settings: Settings, state: RunState, daily: DailyProgress, o: Oracle)
    requires MeetsQuota(state, daily) && state.currentDay + 1 == settings.days
    ensures Captured(settings, state, daily, o) ==
              Halt([Capture(state.currentFrame + 1), RemoveState, RemoveDaily, Stop])
  {
  }

  /** Quota met on the last day: the run is complete. Both documents are
      deleted and the loop ends with exit status 0, nothing being saved. */
  lemma RunDone(settings: Settings, state: RunState, daily: DailyProgress, o: Oracle)
    requires state.nextWakeup <= o.now as real && o.now < o.sunset
    requires MeetsQuota(state, daily) && !ZeroQuotaStart(state)
    requires state.currentDay + 1 == settings.days
    ensures var r := Wake(settings, state, daily, o);
            && r == Halt([Capture(state.currentFrame + 1), RemoveState, RemoveDaily, Stop])
            && Persist(OnDisk(settings, state, daily), r.effects) == Disk(Some(settings), None, None)
  {
    CapturedRunDone(settings, state, RunStartAdjust(state, daily, o).value, o);
    PersistRunEnd(OnDisk(settings, state, daily), state.currentFrame + 1);
  }

  /** Deleting both documents after the last capture leaves only the settings. */
  lemma PersistRunEnd(disk: Disk, k: int)
    ensures Persist(disk, [Capture(k), RemoveState, RemoveDaily, Stop]) == Disk(disk.settings, None, None)
  {
    var e := [Capture(k), RemoveState, RemoveDaily, Stop];
    assert e[1..] == [RemoveState, RemoveDaily, Stop];
    assert e[1..][1..] == [RemoveDaily, Stop];
    var gone := disk.(state := None);
    assert Persist(disk, e) == Persist(gone, [RemoveDaily, Stop]);
    assert Persist(gone, [RemoveDaily, Stop]) == Persist(gone.(daily := None), [Stop]) by {
      assert [RemoveDaily, Stop][1..] == [Stop];
    }
    PersistOne(gone.(daily := None), Stop);
  }

  /** A due wake after today's sunset does not end at the oversleep
      recovery's sleep: it goes on towards a capture, and its next log
      message, to the file the recovery closed, ends the process. At the
      run's first capture that happens before any capture; otherwise the
      next frame has been taken. Nothing is saved after the recovery, so the
      disk keeps the count from before that frame, tomorrow's sunrise as the
      wake-up instant and no daily progress: no day is counted and nothing
      is removed. */
  lemma OversleepFallsThrough(settings: Settings, state: RunState, daily: DailyProgress, o: Oracle)
    requires state.nextWakeup <= o.now as real && o.now >= o.sunset
    ensures var r := Wake(settings, state, daily, o);
            var saved := state.(nextWakeup := o.tomorrowSunrise as real);
            && r.Halt?
            && |r.effects| >= 4
            && r.effects[0] == SaveAll(settings, saved, daily)
            && r.effects[1] == RemoveDaily
            && r.effects[2] == SleepFor(DeltaSeconds(o.tomorrowSunrise - o.now) as real)
            && (!FirstCapture(state) ==> r.effects[3..] == [Capture(state.currentFrame + 1), Fail(LogClosed)])
            && (ZeroQuotaStart(state) ==> r.effects[3..] == [Fail(ZeroDivision)])
            && (FirstCapture(state) && !ZeroQuotaStart(state) ==> r.effects[3..] == [Fail(LogClosed)])
            && Persist(OnDisk(settings, state, daily), r.effects) == Disk(Some(settings), Some(saved), None)
  {
    var saved := state.(nextWakeup := o.tomorrowSunrise as real);
    PersistOverslept(OnDisk(settings, state, daily), SaveAll(settings, saved, daily),
                     SleepFor(DeltaSeconds(o.tomorrowSunrise - o.now) as real), OversleptTail(state));
  }

  /** A save, the removal of the daily progress, a sleep, and then nothing
      that touches the disk, leave the saved run state and no daily
      progress. */
  lemma PersistOverslept(disk: Disk, save: Effect, sleep: Effect, tail: seq<Effect>)
    requires save.SaveAll? && !Touches(sleep)
    requires forall i :: 0 <= i < |tail| ==> !Touches(tail[i])
    ensures Persist(disk, [save, RemoveDaily, sleep] + tail) == Disk(Some(save.settings), Some(save.state), None)
  {
    var pre := [save, RemoveDaily, sleep];
    PersistAppend(disk, pre, tail);
    PersistSaveRemoveSleep(disk, pre);
    PersistUntouched(Persist(disk, pre), tail);
  }

  /** A daily quota with a fractional part is never met by the whole daily
      count: no wake counts a day or ends the run, so the run never
      completes. */
  lemma FractionalQuotaNeverEndsDay(settings: Settings, state: RunState, daily: DailyProgress, o: Oracle)
    requires !IsWhole(state.framesPerDay)
    ensures var r := Wake(settings, state, daily, o);
            && (r.Next? ==> r.state.currentDay == state.currentDay)
            && RemoveState !in r.effects
            && Stop !in r.effects
  {
    assert !MeetsQuota(state, daily);
    var r := Wake(settings, state, daily, o);
    if o.now as real < state.nextWakeup || ZeroQuotaStart(state) {
    } else if o.now < o.sunset {
      CapturedQuotaNotMet(settings, state, RunStartAdjust(state, daily, o).value, o);
    } else {
      OversleepFallsThrough(settings, state, daily, o);
      assert r.effects == r.effects[..3] + r.effects[3..];
    }
  }

  /** Today's count on disk stays below a whole quota: a wake that starts
      below it either leaves the daily progress with a count still below
      it, or leaves none, because the capture that meets the quota ends the
      day or the run and deletes the daily progress. (A fractional quota is
      never met: see `FractionalQuotaNeverEndsDay`.) */
  lemma DailyCountWithinQuota(settings: Settings, state: RunState, daily: DailyProgress, o: Oracle)
    requires IsWhole(state.framesPerDay) && (daily.currentFrame as real) < state.framesPerDay
    ensures var after := Persist(OnDisk(settings, state, daily), Wake(settings, state, daily, o).effects);
            after.daily.None? || (after.daily.value.currentFrame as real) < state.framesPerDay
  {
    var disk := OnDisk(settings, state, daily);
    var r := Wake(settings, state, daily, o);
    if o.now as real < state.nextWakeup {
      EarlyWake(settings, state, daily, o);
    } else if o.now >= o.sunset {
      OversleepFallsThrough(settings, state, daily, o);
    } else if ZeroQuotaStart(state) {
      assert r.effects == [Fail(ZeroDivision)];
      PersistOne(disk, Fail(ZeroDivision));
    } else {
      var d1 := RunStartAdjust(state, daily, o).value;
      assert r == Captured(settings, state, d1, o);
      CapturedDailyWithinQuota(disk, settings, state, d1, o);
    }
  }

  /** The same bound for the capture and what follows it, on any disk. */
  lemma CapturedDailyWithinQuota(disk: Disk, settings: Settings, state: RunState, daily: DailyProgress, o: Oracle)
    requires IsWhole(state.framesPerDay) && (daily.currentFrame as real) < state.framesPerDay
    ensures var after := Persist(disk, Captured(settings, state, daily, o).effects);
            after.daily.None? || (after.daily.value.currentFrame as real) < state.framesPerDay
  {
    var r := Captured(settings, state, daily, o);
    var k := state.currentFrame + 1;
    if MeetsQuota(state, daily) {
      if state.currentDay + 1 == settings.days {
        CapturedRunDone(settings, state, daily, o);
        PersistRunEnd(disk, k);
      } else {
        CapturedDayDone(settings, state, daily, o);
        PersistSaveRemoveSleep(disk, r.effects);
      }
    } else {
      var d := daily.(currentFrame := daily.currentFrame + 1);
      var s := state.(currentFrame := k, nextWakeup := o.now as real + daily.sleepDuration);
      assert r.effects == [Capture(k), SaveAll(settings, s, d),
                           if daily.sleepDuration < 0.0 then Fail(NegativeSleep) else SleepFor(daily.sleepDuration)];
      PersistSaveSleep(disk, r.effects);
      // a whole quota above the count is at least one more than it
      assert daily.currentFrame < state.framesPerDay.Floor;
    }
  }

  /** A run started after today's sunrise paces its first day on the
      daylight that remains: a shorter cadence than the whole day's, so
      that the day's quota still fits before sunset. */
  lemma LateStartShortensCadence(framesPerDay: real, o: Oracle)
    requires framesPerDay > 0.0
    requires o.sunrise < o.now < o.sunset < o.sunrise + SecondsPerDay
    ensures var full := NewDay(framesPerDay, o);
            var adjusted := RunStartAdjust(RunState(0, 0, 0, framesPerDay, 0.0), full, o);
            && adjusted.Some?
            && adjusted.value.currentFrame == 0
            && 0.0 < adjusted.value.sleepDuration < full.sleepDuration
  {
    var full := NewDay(framesPerDay, o);
    var adjusted := RunStartAdjust(RunState(0, 0, 0, framesPerDay, 0.0), full, o);
    var left := DeltaSeconds(o.sunset - o.now);
    var whole := DeltaSeconds(o.sunset - o.sunrise);
    assert left == o.sunset - o.now && whole == o.sunset - o.sunrise && 0 < left < whole;
    var a := adjusted.value.sleepDuration;
    var f := full.sleepDuration;
    assert a * framesPerDay == left as real;
    assert f * framesPerDay == whole as real;
    assert 0.0 * framesPerDay < a * framesPerDay < f * framesPerDay;
    ScaledLess(0.0, a, framesPerDay);
    ScaledLess(a, f, framesPerDay);
  }

  /** Dividing by a positive quota keeps the order of the daylights. */
  lemma ScaledLess(x: real, y: real, p: real)
    requires p > 0.0 && x * p < y * p
    ensures x < y
  {
  }
}

=== FILE: quota.dfy ===
/** When the daily quota `total_frames / days` is whole. The quota is a
    real quotient, while the daily count it is compared with is whole, so
    a quota with a fractional part is never met. */
module Quota {
  import opened Records
  import opened Startup

  /** A real number with no fractional part. */
  predicate IsWhole(x: real) {
    x.Floor as real == x
  }

  /** A non-zero multiple of `d` is at least `d` in size. */
  lemma MultipleSize(d: int, t: int)
    requires d != 0 && t != 0
    ensures d * t >= (if d > 0 then d else -d) || d * t <= -(if d > 0 then d else -d)
  {
  }

  /** A multiple of `d` leaves no remainder. */
  lemma MultipleMod(k: int, d: int)
    requires d != 0
    ensures (k * d) % d == 0
  {
    var m := k * d;
    var t := k - m / d;
    assert m == d * (m / d) + m % d;
    assert d * t == m % d;
    if t != 0 {
      MultipleSize(d, t);
    }
  }

  lemma RealCancel(x: real, y: real, d: real)
    requires d != 0.0 && x * d == y * d
    ensures x == y
  {
    assert (x - y) * d == 0.0;
  }

  /** The quotient `total / days` is whole exactly when `days` divides
      `total`. */
  lemma WholeQuotaIff(total: int, days: int)
    requires days != 0
    ensures IsWhole(total as real / days as real) <==> total % days == 0
  {
    var q := total as real / days as real;
    assert q * days as real == total as real;
    if total % days == 0 {
      var k := total / days;
      assert k * days == total;
      RealCancel(q, k as real, days as real);
    } else if IsWhole(q) {
      var k := q.Floor;
      assert (k * days) as real == total as real;
      MultipleMod(k, days);
    }
  }

  /** The daily quota of a new run is whole exactly when the number of days
      divides the frame total `fps * len_in_seconds`. */
  lemma FirstRunQuotaWhole(settings: Settings)
    requires settings.days != 0
    ensures IsWhole(FirstRunState(settings).framesPerDay) <==>
              (settings.fps * settings.lenInSeconds) % settings.days == 0
  {
    var s := FirstRunState(settings);
    var total := settings.fps * settings.lenInSeconds;
    RealCancel(s.framesPerDay, total as real / settings.days as real, settings.days as real);
    WholeQuotaIff(total, settings.days);
  }
}

=== FILE: records.dfy ===
/** The data model of the timelapse scheduler: the three persisted documents
    (settings, run state, daily progress), the readings of the clock and of the
    sun-time oracle that one wake of the scheduler sees, and the effects that a
    wake has on the outside world. */
module Records {

  /** Seconds in a day. `timedelta.seconds` always lies below it. */
  const SecondsPerDay: int := 86400

  /** `timedelta.seconds` of the difference of two whole-second instants:
      the difference reduced into one day, so that a negative difference
      wraps round to the same time of day (Python keeps the negative part in
      `timedelta.days`). */
  function DeltaSeconds(diff: int): (r: int)
    ensures 0 <= r < SecondsPerDay
    ensures (diff - r) % SecondsPerDay == 0
    ensures 0 <= diff < SecondsPerDay ==> r == diff
  {
    diff % SecondsPerDay
  }

  /** A cadence of `sleep` seconds between frames spreads `quota` frames
      over `daylight` seconds. */
  predicate Paces(sleep: real, quota: real, daylight: int) {
    sleep * quota == daylight as real
  }

  datatype Option<T> = None | Some(value: T)

  /** settings.json, written by the operator: frames per second of the final
      video, its length in seconds and the number of days the run lasts. */
  datatype Settings = Settings(fps: int, lenInSeconds: int, days: int)

  /** state.json: the run-wide progress. `nextWakeup` is an epoch instant. */
  datatype RunState = RunState(
    totalFrames: int,
    currentFrame: int,
    currentDay: int,
    framesPerDay: real,
    nextWakeup: real)

  /** daily_progress.json: the cadence and the count of frames of one day. */
  datatype DailyProgress = DailyProgress(sleepDuration: real, currentFrame: int)

  /** The three documents on disk; `None` is an absent file. */
  datatype Disk = Disk(
    settings: Option<Settings>,
    state: Option<RunState>,
    daily: Option<DailyProgress>)

  /** What one wake reads from the clock and from the sun-time oracle: the
      current instant, today's sunrise and sunset and tomorrow's sunrise, all
      in whole epoch seconds. */
  datatype Oracle = Oracle(now: int, sunrise: int, sunset: int, tomorrowSunrise: int)

  /** The ways a wake ends the process abnormally. */
  datatype Fault =
    | SettingsMissing   // settings.json cannot be opened: exit status 1
    | ZeroDivision      // a quotient by a zero day count or a zero daily quota
    | NegativeSleep     // time.sleep refuses a negative duration
    | LogClosed         // a log message written after `sleep_until_sunrise` closed the log file
    | MissingKey        // the verbose load's message reads a key the run state lacks

  /** The observable effects of a wake, in the order they happen. */
  datatype Effect =
    | WriteState(state: RunState)                                    // state.json written alone
    | WriteDaily(daily: DailyProgress)                               // daily_progress.json written alone
    | SaveAll(settings: Settings, state: RunState, daily: DailyProgress) // all three documents written
    | RemoveState                                                    // state.json deleted
    | RemoveDaily                                                    // daily_progress.json deleted
    | Capture(index: int)                                            // image file frame<index>.jpg taken
    | SleepFor(seconds: real)                                        // process suspended
    | Stop                                                           // loop left, exit status 0
    | Fail(fault: Fault)                                             // process ends with an error

  /** The outcome of one wake: either the loop goes round again, with the
      records as they stand in memory, or the process ends. */
  datatype Step =
    | Next(state: RunState, daily: DailyProgress, effects: seq<Effect>)
    | Halt(effects: seq<Effect>)

  /** The frame indices captured, in order. */
  function Captures(effects: seq<Effect>): (r: seq<int>)
    ensures |r| <= |effects|
    ensures (forall i :: 0 <= i < |effects| ==> !effects[i].Capture?) ==> r == []
  {
    if effects == [] then []
    else (if effects[0].Capture? then [effects[0].index] else []) + Captures(effects[1..])
  }

  lemma {:induction false} CapturesAppend(a: seq<Effect>, b: seq<Effect>)
    ensures Captures(a + b) == Captures(a) + Captures(b)
    decreases |a|
  {
    if a == [] {
      assert a + b == b;
    } else {
      var head := if a[0].Capture? then [a[0].index] else [];
      assert (a + b)[0] == a[0] && (a + b)[1..] == a[1..] + b;
      CapturesAppend(a[1..], b);
      assert Captures(a + b) == head + Captures(a[1..] + b);
      assert Captures(a) == head + Captures(a[1..]);
    }
  }
}

=== FILE: recovery.dfy ===
/** Crash recovery, stated on `Tick`: a wake on whatever the disk holds,
    loading first. The process can be killed at any point of a sleep and
    restarted, so every promise here is about the disk a wake leaves. */
module Recovery {
  import opened Records
  import opened Store
  import opened Startup
  import opened Scheduler
  import opened Properties

  /** The settings document is never written with anything but what was
      loaded, so no wake changes it. */
  lemma SettingsNeverChange(disk: Disk, o: Oracle)
    ensures Persist(disk, Tick(disk, o).effects).settings == disk.settings
  {
    var r := Tick(disk, o);
    match Load(disk, o)
    case LoadFailed(e) =>
      if disk.settings.None? {
        PersistOne(disk, Fail(SettingsMissing));
      } else {
        assert SavesSettings(e, disk.settings.value);
        PersistKeepsSettings(disk, e, disk.settings.value);
      }
    case Loaded(st, s, d, e) =>
      assert SavesSettings(e, st);
      PrependKeeps(e, Wake(st, s, d, o), st, o);
      PersistKeepsSettings(disk, r.effects, st);
  }

  /** The disk after a wake that loaded records is the disk after waking
      on those records as if they had been on disk all along. */
  lemma TickPersists(disk: Disk, o: Oracle)
    requires Load(disk, o).Loaded?
    ensures var l := Load(disk, o);
            Persist(disk, Tick(disk, o).effects)
              == Persist(OnDisk(l.settings, l.state, l.daily), Wake(l.settings, l.state, l.daily, o).effects)
  {
    var l := Load(disk, o);
    PersistAppend(disk, l.effects, Wake(l.settings, l.state, l.daily, o).effects);
  }

  /** When a wake goes round the loop, the run state it holds is on disk
      before it sleeps, with the settings as they were and either the daily
      progress it holds or none. */
  lemma TickSavesState(disk: Disk, o: Oracle)
    requires Tick(disk, o).Next?
    ensures var r := Tick(disk, o);
            var after := Persist(disk, r.effects);
            && after.settings == disk.settings
            && after.state == Some(r.state)
            && (after.daily.Some? ==> after.daily == Some(r.daily))
  {
    var l := Load(disk, o);
    TickPersists(disk, o);
    if o.now as real < l.state.nextWakeup {
      EarlyWake(l.settings, l.state, l.daily, o);
    } else {
      DueWakeDisk(l.settings, l.state, l.daily, o);
    }
  }

  /** Loading a disk that holds settings and a run state takes that run
      state, and the daily progress when there is one. */
  lemma LoadResumes(disk: Disk, o: Oracle, state: RunState, daily: DailyProgress)
    requires disk.settings.Some? && disk.state == Some(state)
    requires disk.daily.Some? ==> disk.daily == Some(daily)
    requires disk.daily.Some? || state.framesPerDay != 0.0
    ensures var l := Load(disk, o);
            && l == Loaded(disk.settings.value, state, if disk.daily.Some? then daily else l.daily, l.effects)
            && (disk.daily.None? ==> l.daily.currentFrame == 0)
  {
  }

  /** A process restarted during the sleep that ends a wake, whatever the
      clock then says, resumes with the run state that wake held and with
      its daily progress. When the day is over the daily progress is gone:
      the first restart writes the new day's progress and then ends on the
      verbose load's message, and only the restart after it resumes, with
      that run state and the new day. A day ended on a zero quota cannot be
      paced, so no restart gets past loading. */
  lemma RestartResumes(disk: Disk, o: Oracle, o1: Oracle, o2: Oracle)
    requires Tick(disk, o).Next?
    ensures var r := Tick(disk, o);
            var after := Persist(disk, r.effects);
            var first := Start(after, o1);
            var second := Start(Persist(after, first.effects), o2);
            && (after.daily.Some? ==> first == Next(r.state, r.daily, []))
            && (after.daily.None? && r.state.framesPerDay != 0.0 ==>
                  && first.Halt? && first.effects[|first.effects| - 1] == Fail(MissingKey)
                  && second == Next(r.state, NewDay(r.state.framesPerDay, o1), []))
            && (after.daily.None? && r.state.framesPerDay == 0.0 ==> first == Halt([Fail(ZeroDivision)]))
  {
    var r := Tick(disk, o);
    var after := Persist(disk, r.effects);
    TickSavesState(disk, o);
    if after.daily.None? && r.state.framesPerDay != 0.0 {
      var first := Start(after, o1);
      var nd := NewDay(r.state.framesPerDay, o1);
      assert Load(after, o1) == Loaded(after.settings.value, r.state, nd, [WriteDaily(nd)]);
      assert Persist(after, first.effects) == OnDisk(after.settings.value, r.state, nd);
    }
  }

  /** A start that goes on hands the loop records that the loop's own load
      takes again as they are, writing nothing, whatever the clock says. */
  lemma StartHandsOver(disk: Disk, o: Oracle, o': Oracle)
    requires Start(disk, o).Next?
    ensures var s := Start(disk, o);
            Load(Persist(disk, s.effects), o') == Loaded(disk.settings.value, s.state, s.daily, [])
  {
  }

  /** A wake that overslept takes the next frame and ends the process with
      the count on disk not moved past it. The restart that follows finds no
      daily progress, writes the new day's and ends in the verbose load; the
      next one goes on, and its first due wake before sunset takes the same
      frame again, writing over the image file taken before. */
  lemma OversleepRetakesFrame(settings: Settings, state: RunState, daily: DailyProgress,
                              o: Oracle, o1: Oracle, o2: Oracle, o3: Oracle)
    requires state.nextWakeup <= o.now as real && o.now >= o.sunset
    requires !FirstCapture(state) && state.framesPerDay != 0.0
    requires o.tomorrowSunrise <= o3.now < o3.sunset
    ensures var r := Wake(settings, state, daily, o);
            var saved := state.(nextWakeup := o.tomorrowSunrise as real);
            var d1 := Disk(Some(settings), Some(saved), None);
            var d2 := OnDisk(settings, saved, NewDay(state.framesPerDay, o1));
            && r.Halt? && Captures(r.effects) == [state.currentFrame + 1]
            && Persist(OnDisk(settings, state, daily), r.effects) == d1
            && Start(d1, o1).Halt? && Persist(d1, Start(d1, o1).effects) == d2
            && Start(d2, o2) == Next(saved, NewDay(state.framesPerDay, o1), [])
            && Captures(Tick(d2, o3).effects) == [state.currentFrame + 1]
  {
    var saved := state.(nextWakeup := o.tomorrowSunrise as real);
    var nd := NewDay(state.framesPerDay, o1);
    TickRetakes(settings, saved, nd, o3);
    assert Captures(Tick(OnDisk(settings, saved, nd), o3).effects) == [state.currentFrame + 1];
    StartOnDisk(settings, saved, nd, o2);
    OversleptRestart(settings, state, daily, o, o1);
  }

  /** An overslept wake that takes the next frame, and the restart after it,
      which writes the new day's progress and ends. */
  lemma OversleptRestart(settings: Settings, state: RunState, daily: DailyProgress, o: Oracle, o1: Oracle)
    requires state.nextWakeup <= o.now as real && o.now >= o.sunset
    requires !FirstCapture(state) && state.framesPerDay != 0.0
    ensures var r := Wake(settings, state, daily, o);
            var saved := state.(nextWakeup := o.tomorrowSunrise as real);
            var d1 := Disk(Some(settings), Some(saved), None);
            && r.Halt? && Captures(r.effects) == [state.currentFrame + 1]
            && Persist(OnDisk(settings, state, daily), r.effects) == d1
            && Start(d1, o1).Halt?
            && Persist(d1, Start(d1, o1).effects) == OnDisk(settings, saved, NewDay(state.framesPerDay, o1))
  {
    OversleepFallsThrough(settings, state, daily, o);
    DueWakeCapturesNextFrame(settings, state, daily, o);
    var saved := state.(nextWakeup := o.tomorrowSunrise as real);
    StartWithoutDaily(Disk(Some(settings), Some(saved), None), o1);
  }

  /** The overslept wake and the restart after it drop today's count but
      keep the run-wide one: the new day starts from zero while the run
      count still holds the frames of the abandoned part of the day, and no
      day has been counted. On a run whose counts were in step (the run count
      is a full quota for every day done plus today's count, the total a
      full quota for every day), a full quota for each day left then brings
      the run count past the total by that part-day's count: the bound
      `current_frame <= total_frames` does not survive an oversleep. */
  lemma OversleepOvershootsTotal(settings: Settings, state: RunState, daily: DailyProgress,
                                 o: Oracle, o1: Oracle)
    requires state.nextWakeup <= o.now as real && o.now >= o.sunset
    requires !FirstCapture(state) && state.framesPerDay != 0.0
    requires state.currentFrame as real
               == state.currentDay as real * state.framesPerDay + daily.currentFrame as real
    requires state.totalFrames as real == settings.days as real * state.framesPerDay
    ensures var d1 := Persist(OnDisk(settings, state, daily), Wake(settings, state, daily, o).effects);
            var d2 := Persist(d1, Start(d1, o1).effects);
            && d2.state.Some? && d2.daily.Some?
            && d2.state.value.currentFrame == state.currentFrame
            && d2.state.value.currentDay == state.currentDay
            && d2.state.value.framesPerDay == state.framesPerDay
            && d2.daily.value.currentFrame == 0
            && d2.state.value.currentFrame as real
                 + (settings.days - d2.state.value.currentDay) as real * d2.state.value.framesPerDay
               == state.totalFrames as real + daily.currentFrame as real
  {
    OversleptRestart(settings, state, daily, o, o1);
    var q := state.framesPerDay;
    assert state.currentDay as real * q + (settings.days - state.currentDay) as real * q
           == settings.days as real * q;
  }

  /** With all three documents on disk and a run past its first capture, a
      start goes on, writing nothing, and a due wake before sunset takes the
      frame one past the saved count. */
  lemma RestartRetakes(disk: Disk, o2: Oracle, o3: Oracle)
    requires disk.settings.Some? && disk.state.Some? && disk.daily.Some?
    requires !FirstCapture(disk.state.value)
    requires disk.state.value.nextWakeup <= o3.now as real && o3.now < o3.sunset
    ensures && Start(disk, o2).Next? && Start(disk, o2).effects == []
            && Captures(Tick(disk, o3).effects) == [disk.state.value.currentFrame + 1]
  {
    var settings, state, daily := disk.settings.value, disk.state.value, disk.daily.value;
    assert disk == OnDisk(settings, state, daily);
    StartOnDisk(settings, state, daily, o2);
    TickRetakes(settings, state, daily, o3);
  }

  /** The due wake of `RestartRetakes`. */
  lemma TickRetakes(settings: Settings, state: RunState, daily: DailyProgress, o: Oracle)
    requires !FirstCapture(state) && state.nextWakeup <= o.now as real && o.now < o.sunset
    ensures Captures(Tick(OnDisk(settings, state, daily), o).effects) == [state.currentFrame + 1]
  {
    TickOnDisk(settings, state, daily, o);
    DueWakeCapturesNextFrame(settings, state, daily, o);
  }

  /** A start that finds a run state and no daily progress writes the new
      day's progress and ends on the missing key. */
  lemma StartWithoutDaily(disk: Disk, o: Oracle)
    requires disk.settings.Some? && disk.state.Some? && disk.daily.None?
    requires disk.state.value.framesPerDay != 0.0
    ensures var s := Start(disk, o);
            && s.Halt?
            && Persist(disk, s.effects)
                 == OnDisk(disk.settings.value, disk.state.value, NewDay(disk.state.value.framesPerDay, o))
  {
    var l := Load(disk, o);
    assert l.daily == NewDay(disk.state.value.framesPerDay, o);
  }

  /** A start on a disk holding all three documents goes on with them and
      writes nothing. */
  lemma StartOnDisk(settings: Settings, state: RunState, daily: DailyProgress, o: Oracle)
    ensures Start(OnDisk(settings, state, daily), o) == Next(state, daily, [])
  {
  }

  /** A pass of the loop on a disk holding all three documents is a wake
      on them. */
  lemma TickOnDisk(settings: Settings, state: RunState, daily: DailyProgress, o: Oracle)
    ensures Tick(OnDisk(settings, state, daily), o) == Wake(settings, state, daily, o)
  {
    var w := Wake(settings, state, daily, o);
    assert Load(OnDisk(settings, state, daily), o) == Loaded(settings, state, daily, []);
    assert [] + w.effects == w.effects;
  }

  /** A process restarted before the saved wake-up instant, with both
      documents on disk, captures nothing and writes nothing: it sleeps for
      the time left until that instant. */
  lemma RestartBeforeWake(disk: Disk, o: Oracle)
    requires disk.settings.Some? && disk.state.Some? && disk.daily.Some?
    requires o.now as real < disk.state.value.nextWakeup
    ensures var r := Tick(disk, o);
            && r == Next(disk.state.value, disk.daily.value, [SleepFor(disk.state.value.nextWakeup - o.now as real)])
            && Persist(disk, r.effects) == disk
  {
    var l := Load(disk, o);
    EarlyWake(l.settings, l.state, l.daily, o);
    TickPersists(disk, o);
  }

  /** The run-wide count a wake starts from: the saved one, or none yet. */
  function StartFrame(disk: Disk): (r: int) {
    if disk.state.Some? then disk.state.value.currentFrame else 0
  }

  /** On loaded records: at most one frame, one past the loaded count, and
      the count held afterwards has moved past it. */
  lemma WakeCapturesNext(settings: Settings, state: RunState, daily: DailyProgress, o: Oracle)
    ensures var r := Wake(settings, state, daily, o);
            && Captures(r.effects) <= [state.currentFrame + 1]
            && (r.Next? ==> r.state.currentFrame == state.currentFrame + |Captures(r.effects)|)
  {
    if o.now as real < state.nextWakeup {
      EarlyWake(settings, state, daily, o);
    } else {
      DueWakeCapturesNextFrame(settings, state, daily, o);
    }
  }

  /** A wake captures at most one frame, numbered one past the count it
      starts from. */
  lemma TickCapturesNext(disk: Disk, o: Oracle)
    ensures Captures(Tick(disk, o).effects) <= [StartFrame(disk) + 1]
  {
    var l := Load(disk, o);
    if l.Loaded? {
      LoadStartFrame(disk, o);
      WakeCapturesNext(l.settings, l.state, l.daily, o);
      PrependCaptures(l.effects, Wake(l.settings, l.state, l.daily, o), StartFrame(disk) + 1);
    }
  }

  lemma LoadStartFrame(disk: Disk, o: Oracle)
    requires Load(disk, o).Loaded?
    ensures Load(disk, o).state.currentFrame == StartFrame(disk)
  {
  }

  lemma PrependCaptures(pre: seq<Effect>, r: Step, k: int)
    requires Captures(pre) == [] && Captures(r.effects) <= [k]
    ensures Captures(Prepend(pre, r).effects) <= [k]
  {
    CapturesAppend(pre, r.effects);
  }

  /** When a wake goes round the loop, the count on disk has moved past
      every frame it captured. */
  lemma TickCountSaved(disk: Disk, o: Oracle)
    requires Tick(disk, o).Next?
    ensures var r := Tick(disk, o);
            var after := Persist(disk, r.effects);
            after.state.Some? && after.state.value.currentFrame == StartFrame(disk) + |Captures(r.effects)|
  {
    var l := Load(disk, o);
    WakeCapturesNext(l.settings, l.state, l.daily, o);
    CapturesAppend(l.effects, Wake(l.settings, l.state, l.daily, o).effects);
    TickSavesState(disk, o);
  }
}

=== FILE: scheduler.dfy ===
/** One wake of the scheduler's loop: load the documents, then either go back
    to sleep because the wake came early, or capture a frame and decide what
    follows it: a short sleep, a sleep until tomorrow's sunrise, or the end of
    the run. Time does not pass inside a wake: every reading of the clock in
    it is `o.now`. */
module Scheduler {
  import opened Records
  import opened Store
  import opened Startup

  /** The first capture of the whole run: nothing captured, no day done. */
  predicate FirstCapture(s: RunState) {
    s.currentFrame == 0 && s.currentDay == 0
  }

  /** Today's quota is met: the daily count equals the (real) daily quota. */
  predicate QuotaMet(s: RunState, d: DailyProgress) {
    d.currentFrame as real == s.framesPerDay
  }

  /** Every save among the effects writes back these settings. */
  predicate SavesSettings(effects: seq<Effect>, settings: Settings) {
    forall i :: 0 <= i < |effects| && effects[i].SaveAll? ==> effects[i].settings == settings
  }

  /** A wake that goes round the loop ends with a sleep, after saving the run
      state it holds: either with today's progress saved and the sleep landing
      exactly on the saved wake-up instant, or with today's progress deleted,
      tomorrow's sunrise saved and a sleep shorter than a day that lands on
      that sunrise whenever it is less than a day away. */
  predicate SleepsOnSavedWake(r: Step, settings: Settings, o: Oracle) {
    && r.Next?
    && |r.effects| >= 2
    && r.effects[|r.effects| - 1].SleepFor?
    && var w := r.effects[|r.effects| - 1].seconds;
       || (&& r.effects[|r.effects| - 2] == SaveAll(settings, r.state, r.daily)
           && o.now as real + w == r.state.nextWakeup)
       || (&& |r.effects| >= 3
           && r.effects[|r.effects| - 3] == SaveAll(settings, r.state, r.daily)
           && r.effects[|r.effects| - 2] == RemoveDaily
           && r.state.nextWakeup == o.tomorrowSunrise as real
           && 0.0 <= w < SecondsPerDay as real
           && (0 <= o.tomorrowSunrise - o.now < SecondsPerDay ==> o.now as real + w == r.state.nextWakeup))
  }

  /** The same outcome with effects that happened before it. */
  function Prepend(pre: seq<Effect>, r: Step): (p: Step)
    ensures p.Next? <==> r.Next?
    ensures p.effects == pre + r.effects
    ensures p.Next? ==> p.state == r.state && p.daily == r.daily
  {
    match r
    case Next(s, d, e) => Next(s, d, pre + e)
    case Halt(e) => Halt(pre + e)
  }

  /** Effects that happened before, every save among them writing these
      settings, come first among the captures and leave a wake's last
      effect, the shape of its end and the settings of its saves as they
      are. */
  lemma PrependKeeps(pre: seq<Effect>, r: Step, settings: Settings, o: Oracle)
    requires SavesSettings(pre, settings)
    ensures Captures(Prepend(pre, r).effects) == Captures(pre) + Captures(r.effects)
    ensures |r.effects| > 0 ==>
              Prepend(pre, r).effects[|Prepend(pre, r).effects| - 1] == r.effects[|r.effects| - 1]
    ensures SleepsOnSavedWake(r, settings, o) ==> SleepsOnSavedWake(Prepend(pre, r), settings, o)
    ensures SavesSettings(r.effects, settings) ==> SavesSettings(Prepend(pre, r).effects, settings)
  {
    var e := Prepend(pre, r).effects;
    CapturesAppend(pre, r.effects);
    if SavesSettings(r.effects, settings) {
      forall i | 0 <= i < |e| && e[i].SaveAll? ensures e[i].settings == settings {
        if i >= |pre| {
          assert e[i] == r.effects[i - |pre|];
        }
      }
    }
  }

  /** `sleep_until_sunrise`: store tomorrow's sunrise as the wake-up instant,
      save every document, delete the daily progress and sleep. The sleep is
      the distance to that sunrise reduced into one day, so it lands on the
      stored instant whenever that sunrise is less than a day away. */
  function SleepUntilSunrise(settings: Settings, state: RunState, daily: DailyProgress, o: Oracle)
    : (r: (RunState, seq<Effect>))
    ensures r.0 == state.(nextWakeup := o.tomorrowSunrise as real)
    ensures r.1 == [SaveAll(settings, r.0, daily), RemoveDaily,
                    SleepFor(DeltaSeconds(o.tomorrowSunrise - o.now) as real)]
    // the sleep lies within a day and lands on the saved sunrise when it is less than a day away
    ensures 0.0 <= r.1[2].seconds < SecondsPerDay as real
    ensures 0 <= o.tomorrowSunrise - o.now < SecondsPerDay ==>
              o.now as real + r.1[2].seconds == r.0.nextWakeup
    ensures Captures(r.1) == [] && SavesSettings(r.1, settings)
  {
    var s := state.(nextWakeup := o.tomorrowSunrise as real);
    var effects := [SaveAll(settings, s, daily), RemoveDaily,
                    SleepFor(DeltaSeconds(o.tomorrowSunrise - o.now) as real)];
    assert forall i :: 0 <= i < |effects| ==> !effects[i].Capture?;
    (s, effects)
  }

  /** The adjustment before the run's first capture: the cadence is taken
      from the daylight that remains until sunset instead of the whole day.
      `None` is the division by a zero quota that ends the process. */
  function RunStartAdjust(state: RunState, daily: DailyProgress, o: Oracle): (r: Option<DailyProgress>)
    ensures r.None? <==> FirstCapture(state) && state.framesPerDay == 0.0
    ensures r.Some? ==> r.value.currentFrame == daily.currentFrame
    ensures r.Some? && !FirstCapture(state) ==> r.value == daily
    ensures r.Some? && FirstCapture(state) ==>
              Paces(r.value.sleepDuration, state.framesPerDay, DeltaSeconds(o.sunset - o.now))
  {
    if FirstCapture(state) then
      if state.framesPerDay == 0.0 then None
      else Some(daily.(sleepDuration := DeltaSeconds(o.sunset - o.now) as real / state.framesPerDay))
    else Some(daily)
  }

  /** What follows a capture, given the counters already incremented. When
      the quota is met the day is counted; on the last day both documents are
      deleted and the loop ends, otherwise the scheduler sleeps until
      tomorrow's sunrise. When it is not met the next wake is one cadence
      away, saved before the sleep. */
  function AfterCapture(settings: Settings, state: RunState, daily: DailyProgress, o: Oracle): (r: Step)
    // the run is over
    ensures QuotaMet(state, daily) && state.currentDay + 1 == settings.days ==>
              r == Halt([RemoveState, RemoveDaily, Stop])
    // the day is over
    ensures QuotaMet(state, daily) && state.currentDay + 1 != settings.days ==>
              && r.Next?
              && r.state.currentDay == state.currentDay + 1
              && r.state.nextWakeup == o.tomorrowSunrise as real
              && r.state.currentFrame == state.currentFrame
              && r.state.totalFrames == state.totalFrames
              && r.state.framesPerDay == state.framesPerDay
              && r.daily == daily
              && |r.effects| == 3
              && r.effects[0] == SaveAll(settings, r.state, r.daily)
              && r.effects[1] == RemoveDaily
              && r.effects[2].SleepFor? && 0.0 <= r.effects[2].seconds < SecondsPerDay as real
    // more frames today
    ensures !QuotaMet(state, daily) ==> (r.Next? <==> daily.sleepDuration >= 0.0)
    ensures !QuotaMet(state, daily) && r.Next? ==>
              && r.state == state.(nextWakeup := o.now as real + daily.sleepDuration)
              && r.daily == daily
              && r.effects == [SaveAll(settings, r.state, r.daily), SleepFor(daily.sleepDuration)]
    ensures !QuotaMet(state, daily) && r.Halt? ==>
              r.effects == [SaveAll(settings, state.(nextWakeup := o.now as real + daily.sleepDuration), daily),
                            Fail(NegativeSleep)]
    ensures Captures(r.effects) == []
    ensures r.Next? ==> SleepsOnSavedWake(r, settings, o)
    ensures SavesSettings(r.effects, settings)
  {
    if QuotaMet(state, daily) then
      var s := state.(currentDay := state.currentDay + 1);
      if s.currentDay == settings.days then Halt([RemoveState, RemoveDaily, Stop])
      else
        var (s', effects) := SleepUntilSunrise(settings, s, daily, o);
        Next(s', daily, effects)
    else
      var s := state.(nextWakeup := o.now as real + daily.sleepDuration);
      if daily.sleepDuration < 0.0 then Halt([SaveAll(settings, s, daily), Fail(NegativeSleep)])
      else Next(s, daily, [SaveAll(settings, s, daily), SleepFor(daily.sleepDuration)])
  }

  /** Both counters incremented, the frame whose index is the new run-wide
      count captured, then `AfterCapture`. */
  function Captured(settings: Settings, state: RunState, daily: DailyProgress, o: Oracle): (r: Step)
    ensures Captures(r.effects) == [state.currentFrame + 1]
    ensures r.effects[0] == Capture(state.currentFrame + 1)
    ensures r.Next? ==>
              && r.state.currentFrame == state.currentFrame + 1
              && r.daily.currentFrame == daily.currentFrame + 1
              && r.state.totalFrames == state.totalFrames
              && r.state.framesPerDay == state.framesPerDay
              && r.daily.sleepDuration == daily.sleepDuration
    ensures r.Next? ==> SleepsOnSavedWake(r, settings, o)
    ensures SavesSettings(r.effects, settings)
  {
    var s := state.(currentFrame := state.currentFrame + 1);
    var d := daily.(currentFrame := daily.currentFrame + 1);
    var rest := AfterCapture(settings, s, d, o);
    assert Captures([Capture(s.currentFrame)]) == [s.currentFrame];
    PrependKeeps([Capture(s.currentFrame)], rest, settings, o);
    Prepend([Capture(s.currentFrame)], rest)
  }

  /** The capture of a due wake before sunset and what follows it: the
      run-start adjustment, then `Captured`. */
  function CaptureFrame(settings: Settings, state: RunState, daily: DailyProgress, o: Oracle): (r: Step)
    // a zero quota at the run's first capture ends the process before it
    ensures FirstCapture(state) && state.framesPerDay == 0.0 ==> r == Halt([Fail(ZeroDivision)])
    ensures !(FirstCapture(state) && state.framesPerDay == 0.0) ==>
              && Captures(r.effects) == [state.currentFrame + 1]
              && r.effects[0] == Capture(state.currentFrame + 1)
              && RunStartAdjust(state, daily, o).Some?
              && r == Captured(settings, state, RunStartAdjust(state, daily, o).value, o)
    // the cadence is replaced only at the run's first capture
    ensures r.Next? && !FirstCapture(state) ==> r.daily.sleepDuration == daily.sleepDuration
    ensures r.Next? && FirstCapture(state) ==>
              Paces(r.daily.sleepDuration, state.framesPerDay, DeltaSeconds(o.sunset - o.now))
    ensures r.Next? ==> SleepsOnSavedWake(r, settings, o)
    ensures SavesSettings(r.effects, settings)
  {
    match RunStartAdjust(state, daily, o)
    case None => Halt([Fail(ZeroDivision)])
    case Some(d1) => Captured(settings, state, d1, o)
  }

  /** What an overslept wake does after the recovery's sleep, up to the
      closed log that ends it: at the run's first capture the cadence is
      re-paced (a zero quota fails there) and the message about it fails;
      at any other capture the next frame is taken and the message about it
      fails. Whatever happens, there is one failure and it comes last. */
  function OversleptTail(state: RunState): (r: seq<Effect>)
    ensures |r| > 0
    ensures Captures(r) == if FirstCapture(state) then [] else [state.currentFrame + 1]
    ensures r[|r| - 1] ==
              if FirstCapture(state) && state.framesPerDay == 0.0 then Fail(ZeroDivision) else Fail(LogClosed)
    // the process ends at its one failure: every effect before the last is a capture
    ensures forall i :: 0 <= i < |r| ==> if i < |r| - 1 then r[i].Capture? else r[i].Fail?
  {
    if !FirstCapture(state) then
      var r := [Capture(state.currentFrame + 1), Fail(LogClosed)];
      assert r[1..] == [Fail(LogClosed)];
      r
    else if state.framesPerDay == 0.0 then [Fail(ZeroDivision)]
    else [Fail(LogClosed)]
  }

  /** A due wake that comes after today's sunset (the oversleep recovery):
      tomorrow's sunrise is saved and the daily progress deleted, as at the
      end of a day, and the log file is closed. Lacking a `continue`, the
      wake then goes on, and its next log message, written to the closed
      file, ends the process (`OversleptTail`). Nothing is saved after the
      recovery's save. */
  function Overslept(settings: Settings, state: RunState, daily: DailyProgress, o: Oracle): (r: Step)
    ensures r.Halt?
    ensures r.effects == SleepUntilSunrise(settings, state, daily, o).1 + OversleptTail(state)
    ensures Captures(r.effects) == if FirstCapture(state) then [] else [state.currentFrame + 1]
    ensures SavesSettings(r.effects, settings)
  {
    var pre := SleepUntilSunrise(settings, state, daily, o).1;
    var tail := OversleptTail(state);
    CapturesAppend(pre, tail);
    Halt(pre + tail)
  }

  /** A wake that is due: the oversleep recovery when it is already past
      today's sunset, otherwise the capture and what follows it. */
  function Due(settings: Settings, state: RunState, daily: DailyProgress, o: Oracle): (r: Step)
    requires state.nextWakeup <= o.now as real
    // a zero quota at the run's first capture ends the process before it
    ensures FirstCapture(state) && state.framesPerDay == 0.0 ==>
              && r.Halt? && Captures(r.effects) == []
              && |r.effects| > 0 && r.effects[|r.effects| - 1] == Fail(ZeroDivision)
    // exactly the next frame is captured, save at the run's first capture when
    // the quota is zero or the wake came after sunset
    ensures Captures(r.effects) ==
              if FirstCapture(state) && (state.framesPerDay == 0.0 || o.now >= o.sunset) then []
              else [state.currentFrame + 1]
    // after sunset the wake ends the process
    ensures o.now >= o.sunset ==> r.Halt?
    ensures r.Next? ==> SleepsOnSavedWake(r, settings, o)
    ensures SavesSettings(r.effects, settings)
  {
    if o.now >= o.sunset then Overslept(settings, state, daily, o)
    else CaptureFrame(settings, state, daily, o)
  }

  /** The body of the loop once the documents are loaded: a wake before
      the saved wake-up instant sleeps again for exactly the time left and
      changes nothing; any other wake is due. */
  function Wake(settings: Settings, state: RunState, daily: DailyProgress, o: Oracle): (r: Step)
    ensures o.now as real < state.nextWakeup ==>
              && r == Next(state, daily, [SleepFor(state.nextWakeup - o.now as real)])
              && state.nextWakeup - o.now as real > 0.0
    ensures state.nextWakeup <= o.now as real ==> r == Due(settings, state, daily, o)
    ensures state.nextWakeup <= o.now as real && r.Next? ==> SleepsOnSavedWake(r, settings, o)
    ensures SavesSettings(r.effects, settings)
  {
    if o.now as real < state.nextWakeup then
      Next(state, daily, [SleepFor(state.nextWakeup - o.now as real)])
    else
      Due(settings, state, daily, o)
  }

  /** One pass of the loop: load the documents, creating the missing ones,
      then wake on the loaded records. */
  function Tick(disk: Disk, o: Oracle): (r: Step)
    ensures disk.settings.None? ==> r == Halt([Fail(SettingsMissing)])
    ensures Load(disk, o).LoadFailed? ==> r == Halt(Load(disk, o).effects)
    ensures var l := Load(disk, o);
            l.Loaded? ==> r == Prepend(l.effects, Wake(l.settings, l.state, l.daily, o))
  {
    match Load(disk, o)
    case LoadFailed(e) => Halt(e)
    case Loaded(settings, state, daily, e) => Prepend(e, Wake(settings, state, daily, o))
  }

  /** The start of the process, before the loop: a verbose load. Its message
      for a newly created daily progress reads a key the run state does not
      have, so a start that finds no daily progress on disk writes one and
      then ends. A start that goes on hands the loop the records on disk. */
  function Start(disk: Disk, o: Oracle): (r: Step)
    ensures disk.settings.None? ==> r == Halt([Fail(SettingsMissing)])
    // a failed load ends the start with exactly what the load did
    ensures Load(disk, o).LoadFailed? ==> r == Halt(Load(disk, o).effects)
    ensures Captures(r.effects) == []
    ensures r.Next? <==> Load(disk, o).Loaded? && disk.daily.Some?
    // the start goes on with the records on disk, writing only a missing run state
    ensures r.Next? ==>
              && Persist(disk, r.effects) == Disk(disk.settings, Some(r.state), Some(r.daily))
              && r.daily == disk.daily.value
              && (disk.state.Some? ==> r.state == disk.state.value && r.effects == [])
    // a missing daily progress is written, then the process ends
    ensures var l := Load(disk, o);
            l.Loaded? && disk.daily.None? ==>
              && r.Halt? && |r.effects| > 0 && r.effects[|r.effects| - 1] == Fail(MissingKey)
              && Persist(disk, r.effects) == Disk(disk.settings, Some(l.state), Some(l.daily))
  {
    match Load(disk, o)
    case LoadFailed(e) => Halt(e)
    case Loaded(settings, state, daily, e) =>
      if disk.daily.None? then
        var effects := e + [Fail(MissingKey)];
        CapturesAppend(e, [Fail(MissingKey)]);
        assert Captures([Fail(MissingKey)]) == [];
        PersistSnoc(disk, e, Fail(MissingKey));
        Halt(effects)
      else Next(state, daily, e)
  }
}

=== FILE: startup.dfy ===
/** Loading the three documents at the top of every wake (`load_configs`):
    settings must exist; a missing run state or daily progress is not an
    error but the start of a run or of a day, and is initialised and written
    at once. */
module Startup {
  import opened Records
  import opened Store

  /** The records a wake works on, with the writes that loading made; or the
      effects up to the error that ended the process. */
  datatype Loaded =
    | Loaded(settings: Settings, state: RunState, daily: DailyProgress, effects: seq<Effect>)
    | LoadFailed(effects: seq<Effect>)

  /** The run state of a run's first start (`init_state`). */
  function FirstRunState(settings: Settings): (r: RunState)
    requires settings.days != 0
    ensures r.totalFrames == settings.fps * settings.lenInSeconds
    ensures r.framesPerDay * (settings.days as real) == r.totalFrames as real
    ensures r.currentFrame == 0 && r.currentDay == 0 && r.nextWakeup == 0.0
  {
    var total := settings.fps * settings.lenInSeconds;
    RunState(total, 0, 0, total as real / settings.days as real, 0.0)
  }

  /** The daily progress of a new day (`init_daily_progress`): no frame yet,
      and today's whole daylight spread evenly over the daily quota. */
  function NewDay(framesPerDay: real, o: Oracle): (r: DailyProgress)
    requires framesPerDay != 0.0
    ensures r.currentFrame == 0
    ensures Paces(r.sleepDuration, framesPerDay, DeltaSeconds(o.sunset - o.sunrise))
  {
    DailyProgress(DeltaSeconds(o.sunset - o.sunrise) as real / framesPerDay, 0)
  }

  /** `load_configs`: read settings, then the run state, then the daily
      progress, creating whichever of the last two is missing. */
  function Load(disk: Disk, o: Oracle): (r: Loaded)
    ensures disk.settings.None? <==> r == LoadFailed([Fail(SettingsMissing)])
    ensures disk.settings.Some? && disk.state.None? && disk.settings.value.days == 0
            ==> r == LoadFailed([Fail(ZeroDivision)])
    // otherwise loading succeeds unless a new day must be paced on a zero quota
    ensures disk.settings.Some? && disk.state.Some? ==>
              (r.Loaded? <==> disk.daily.Some? || disk.state.value.framesPerDay != 0.0)
    ensures disk.settings.Some? && disk.state.None? && disk.settings.value.days != 0 ==>
              (r.Loaded? <==> disk.daily.Some? || disk.settings.value.fps * disk.settings.value.lenInSeconds != 0)
    // that failure comes after a new run state is written
    ensures disk.settings.Some? && disk.state.Some? && disk.daily.None? && disk.state.value.framesPerDay == 0.0 ==>
              r == LoadFailed([Fail(ZeroDivision)])
    ensures disk.settings.Some? && disk.state.None? && disk.daily.None? && disk.settings.value.days != 0
            && disk.settings.value.fps * disk.settings.value.lenInSeconds == 0 ==>
              r == LoadFailed([WriteState(FirstRunState(disk.settings.value)), Fail(ZeroDivision)])
    ensures r.Loaded? ==> Some(r.settings) == disk.settings
    // a document on disk is taken as it is
    ensures r.Loaded? && disk.state.Some? ==> r.state == disk.state.value
    ensures r.Loaded? && disk.daily.Some? ==> r.daily == disk.daily.value
    // first run of the whole timelapse
    ensures r.Loaded? && disk.state.None? ==>
              && r.state.totalFrames == r.settings.fps * r.settings.lenInSeconds
              && r.state.framesPerDay * (r.settings.days as real) == r.state.totalFrames as real
              && r.state.currentFrame == 0 && r.state.currentDay == 0
              && r.state.nextWakeup == 0.0
    // first wake of a day
    ensures r.Loaded? && disk.daily.None? ==>
              && r.daily.currentFrame == 0
              && Paces(r.daily.sleepDuration, r.state.framesPerDay, DeltaSeconds(o.sunset - o.sunrise))
    // a quota of zero cannot divide the day's daylight
    ensures disk.settings.Some? && disk.daily.None? && r.Loaded? ==> r.state.framesPerDay != 0.0
    ensures r.LoadFailed? ==> Captures(r.effects) == [] && |r.effects| > 0 && r.effects[|r.effects| - 1].Fail?
    // loading captures nothing and leaves on disk exactly the records it returns
    ensures r.Loaded? ==> Captures(r.effects) == []
    ensures r.Loaded? ==> Persist(disk, r.effects) == Disk(disk.settings, Some(r.state), Some(r.daily))
    ensures r.Loaded? && disk.state.Some? && disk.daily.Some? ==> r.effects == []
  {
    match disk.settings
    case None => LoadFailed([Fail(SettingsMissing)])
    case Some(settings) =>
      if disk.state.None? && settings.days == 0 then LoadFailed([Fail(ZeroDivision)])
      else
        var state := if disk.state.Some? then disk.state.value else FirstRunState(settings);
        var stateWrites := if disk.state.Some? then [] else [WriteState(state)];
        if disk.daily.None? && state.framesPerDay == 0.0 then
          var effects := stateWrites + [Fail(ZeroDivision)];
          assert effects[|effects| - 1] == Fail(ZeroDivision);
          assert forall i :: 0 <= i < |effects| ==> !effects[i].Capture?;
          LoadFailed(effects)
        else
          var daily := if disk.daily.Some? then disk.daily.value else NewDay(state.framesPerDay, o);
          var dailyWrites := if disk.daily.Some? then [] else [WriteDaily(daily)];
          var effects := stateWrites + dailyWrites;
          assert Captures(effects) == [] by {
            assert forall i :: 0 <= i < |effects| ==> !effects[i].Capture?;
          }
          LoadPersists(disk, settings, state, daily, stateWrites, dailyWrites);
          Loaded(settings, state, daily, effects)
  }

  lemma LoadPersists(disk: Disk, settings: Settings, state: RunState, daily: DailyProgress,
                     stateWrites: seq<Effect>, dailyWrites: seq<Effect>)
    requires disk.settings == Some(settings)
    requires stateWrites == if disk.state.Some? then [] else [WriteState(state)]
    requires disk.state.Some? ==> disk.state.value == state
    requires dailyWrites == if disk.daily.Some? then [] else [WriteDaily(daily)]
    requires disk.daily.Some? ==> disk.daily.value == daily
    ensures Persist(disk, stateWrites + dailyWrites) == Disk(disk.settings, Some(state), Some(daily))
  {
    PersistAppend(disk, stateWrites, dailyWrites);
    if disk.state.None? {
      PersistOne(disk, WriteState(state));
    }
    if disk.daily.None? {
      PersistOne(Persist(disk, stateWrites), WriteDaily(daily));
    }
  }

  /** Loading is idempotent: loading again from what a load left on disk
      yields the same records and writes nothing, whatever the clock and the
      sun times then say. This is why a restart, which loads once before the
      loop and once inside it, resumes from exactly the persisted records. */
  lemma LoadIdempotent(disk: Disk, o: Oracle, o': Oracle)
    requires Load(disk, o).Loaded?
    ensures var r := Load(disk, o);
            Load(Persist(disk, r.effects), o') == Loaded(r.settings, r.state, r.daily, [])
  {
  }
}

=== FILE: store.dfy ===
/** What the effects of a wake leave on disk. Only the writes and removals of
    the three documents change it; captures, sleeps and the end of the
    process leave it as it is. */
module Store {
  import opened Records

  /** Whether an effect writes or removes a document. */
  predicate Touches(e: Effect) {
    e.WriteState? || e.WriteDaily? || e.SaveAll? || e.RemoveState? || e.RemoveDaily?
  }

  function Apply(disk: Disk, e: Effect): (r: Disk)
    ensures !Touches(e) ==> r == disk
    ensures e.SaveAll? ==> r == Disk(Some(e.settings), Some(e.state), Some(e.daily))
  {
    match e
    case WriteState(s) => disk.(state := Some(s))
    case WriteDaily(d) => disk.(daily := Some(d))
    case SaveAll(st, s, d) => Disk(Some(st), Some(s), Some(d))
    case RemoveState => disk.(state := None)
    case RemoveDaily => disk.(daily := None)
    case _ => disk
  }

  /** The disk after the effects, applied in order. */
  function Persist(disk: Disk, effects: seq<Effect>): (r: Disk)
    decreases |effects|
  {
    if effects == [] then disk else Persist(Apply(disk, effects[0]), effects[1..])
  }

  lemma {:induction false} PersistAppend(disk: Disk, a: seq<Effect>, b: seq<Effect>)
    ensures Persist(disk, a + b) == Persist(Persist(disk, a), b)
    decreases |a|
  {
    if a == [] {
      assert a + b == b;
    } else {
      assert (a + b)[1..] == a[1..] + b;
      PersistAppend(Apply(disk, a[0]), a[1..], b);
    }
  }

  lemma PersistOne(disk: Disk, e: Effect)
    ensures Persist(disk, [e]) == Apply(disk, e)
  {
    assert [e][1..] == [];
  }

  lemma PersistSnoc(disk: Disk, a: seq<Effect>, e: Effect)
    ensures Persist(disk, a + [e]) == Apply(Persist(disk, a), e)
  {
    PersistAppend(disk, a, [e]);
    PersistOne(Persist(disk, a), e);
  }

  /** A save of all three documents and then a sleep, or anything else
      that touches no document, leave the saved records on disk. */
  lemma PersistSaveSleep(disk: Disk, e: seq<Effect>)
    requires |e| >= 2 && e[|e| - 2].SaveAll? && !Touches(e[|e| - 1])
    ensures Persist(disk, e) == Disk(Some(e[|e| - 2].settings), Some(e[|e| - 2].state), Some(e[|e| - 2].daily))
  {
    var n := |e|;
    assert e == e[..n - 2] + [e[n - 2]] + [e[n - 1]];
    PersistSnoc(disk, e[..n - 2] + [e[n - 2]], e[n - 1]);
    PersistSnoc(disk, e[..n - 2], e[n - 2]);
  }

  /** A save of all three documents, the removal of the daily progress and
      then a sleep, or anything else that touches no document, leave the
      saved run state and no daily progress. */
  lemma PersistSaveRemoveSleep(disk: Disk, e: seq<Effect>)
    requires |e| >= 3 && e[|e| - 3].SaveAll? && e[|e| - 2] == RemoveDaily && !Touches(e[|e| - 1])
    ensures Persist(disk, e) == Disk(Some(e[|e| - 3].settings), Some(e[|e| - 3].state), None)
  {
    var n := |e|;
    assert e == e[..n - 3] + [e[n - 3]] + [e[n - 2]] + [e[n - 1]];
    PersistSnoc(disk, e[..n - 3] + [e[n - 3]] + [e[n - 2]], e[n - 1]);
    PersistSnoc(disk, e[..n - 3] + [e[n - 3]], e[n - 2]);
    PersistSnoc(disk, e[..n - 3], e[n - 3]);
  }

  /** Effects whose saves all carry the given settings never change the
      settings document from it. */
  lemma {:induction false} PersistKeepsSettings(disk: Disk, e: seq<Effect>, st: Settings)
    requires disk.settings == Some(st)
    requires forall i :: 0 <= i < |e| && e[i].SaveAll? ==> e[i].settings == st
    ensures Persist(disk, e).settings == Some(st)
    decreases |e|
  {
    if e != [] {
      assert forall i :: 0 <= i < |e[1..]| && e[1..][i].SaveAll? ==> e[1..][i].settings == st by {
        forall i | 0 <= i < |e[1..]| ensures e[1..][i].SaveAll? ==> e[1..][i].settings == st {
          assert e[1..][i] == e[i + 1];
        }
      }
      PersistKeepsSettings(Apply(disk, e[0]), e[1..], st);
    }
  }

  /** Effects that touch no document leave the disk as it is. */
  lemma {:induction false} PersistUntouched(disk: Disk, e: seq<Effect>)
    requires forall i :: 0 <= i < |e| ==> !Touches(e[i])
    ensures Persist(disk, e) == disk
    decreases |e|
  {
    if e != [] {
      assert forall i :: 0 <= i < |e[1..]| ==> !Touches(e[1..][i]) by {
        forall i | 0 <= i < |e[1..]| ensures !Touches(e[1..][i]) {
          assert e[1..][i] == e[i + 1];
        }
      }
      PersistUntouched(Apply(disk, e[0]), e[1..]);
    }
  }
}

=== FILE: trace.dfy ===
/** The life of one process of the scheduler: its start, then passes of
    the loop, each on the disk the previous one left, until one ends the
    process. A restart is a new lifetime on the disk the last one left;
    `Recovery` relates the two. */
module Trace {
  import opened Records
  import opened Store
  import opened Startup
  import opened Scheduler
  import opened Recovery

  /** The wakes in order, with the clock and sun times each one sees, until
      one ends the process: the disk left and every effect in order. */
  function Run(disk: Disk, wakes: seq<Oracle>): (r: (Disk, seq<Effect>))
    ensures r.0 == Persist(disk, r.1)
    decreases |wakes|, 0
  {
    if wakes == [] then (disk, []) else After(disk, Tick(disk, wakes[0]), wakes[1..])
  }

  /** The run that continues from a wake with outcome `t` on `disk`. */
  function After(disk: Disk, t: Step, wakes: seq<Oracle>): (r: (Disk, seq<Effect>))
    ensures r.0 == Persist(disk, r.1)
    decreases |wakes|, 1
  {
    var after := Persist(disk, t.effects);
    if t.Halt? then (after, t.effects)
    else
      var rest := Run(after, wakes);
      PersistAppend(disk, t.effects, rest.1);
      (rest.0, t.effects + rest.1)
  }

  /** The numbers `from`, `from + 1`, ... in order. */
  predicate Consecutive(c: seq<int>, from: int) {
    forall i :: 0 <= i < |c| ==> c[i] == from + i
  }

  /** At most the next number, then consecutive numbers after it. */
  lemma ConsecutiveJoin(a: seq<int>, b: seq<int>, from: int)
    requires a <= [from] && Consecutive(b, from + |a|)
    ensures Consecutive(a + b, from)
  {
  }

  /** What a wake promises about frame numbers (`TickCapturesNext`,
      `TickCountSaved`), for an outcome `t` on `disk`. */
  predicate CountsOn(disk: Disk, t: Step) {
    && Captures(t.effects) <= [StartFrame(disk) + 1]
    && (t.Next? ==>
          var after := Persist(disk, t.effects);
          after.state.Some? && after.state.value.currentFrame == StartFrame(disk) + |Captures(t.effects)|)
  }

  /** Frames are numbered consecutively from one past the count on disk
      when the loop starts, across any number of its passes: none is skipped
      and none taken twice. */
  lemma {:induction false} RunCapturesConsecutive(disk: Disk, wakes: seq<Oracle>)
    ensures Consecutive(Captures(Run(disk, wakes).1), StartFrame(disk) + 1)
    decreases |wakes|, 0
  {
    if wakes != [] {
      TickCapturesNext(disk, wakes[0]);
      if Tick(disk, wakes[0]).Next? {
        TickCountSaved(disk, wakes[0]);
      }
      AfterCapturesConsecutive(disk, Tick(disk, wakes[0]), wakes[1..]);
    }
  }

  lemma {:induction false} AfterCapturesConsecutive(disk: Disk, t: Step, wakes: seq<Oracle>)
    requires CountsOn(disk, t)
    ensures Consecutive(Captures(After(disk, t, wakes).1), StartFrame(disk) + 1)
    decreases |wakes|, 1
  {
    if t.Next? {
      var after := Persist(disk, t.effects);
      var rest := Run(after, wakes);
      RunCapturesConsecutive(after, wakes);
      CapturesAppend(t.effects, rest.1);
      ConsecutiveJoin(Captures(t.effects), Captures(rest.1), StartFrame(disk) + 1);
    }
  }

  /** A lifetime: the start and, when it goes on, the loop on the disk it
      leaves. */
  function Lifetime(disk: Disk, o: Oracle, wakes: seq<Oracle>): (r: (Disk, seq<Effect>))
    ensures r.0 == Persist(disk, r.1)
  {
    var s := Start(disk, o);
    var after := Persist(disk, s.effects);
    if s.Halt? then (after, s.effects)
    else
      var rest := Run(after, wakes);
      PersistAppend(disk, s.effects, rest.1);
      (rest.0, s.effects + rest.1)
  }

  /** Within one lifetime, frames are numbered consecutively from one past
      the count on disk when the process starts. */
  lemma LifetimeCapturesConsecutive(disk: Disk, o: Oracle, wakes: seq<Oracle>)
    ensures Consecutive(Captures(Lifetime(disk, o, wakes).1), StartFrame(disk) + 1)
  {
    var s := Start(disk, o);
    if s.Next? {
      var after := Persist(disk, s.effects);
      LoadStartFrame(disk, o);
      assert StartFrame(after) == StartFrame(disk);
      RunCapturesConsecutive(after, wakes);
      CapturesAppend(s.effects, Run(after, wakes).1);
    }
  }

  /** Frame numbers strictly increase within one lifetime, so no image file
      is written twice by the same process. (Across a restart that follows
      an overslept wake a frame is taken again: see
      `Recovery.OversleepRetakesFrame`.) */
  lemma LifetimeNeverOverwrites(disk: Disk, o: Oracle, wakes: seq<Oracle>)
    ensures var c := Captures(Lifetime(disk, o, wakes).1);
            forall i, j :: 0 <= i < j < |c| ==> c[i] < c[j]
  {
    LifetimeCapturesConsecutive(disk, o, wakes);
  }
}
